=== FILE: README.md ===
# Snooby view logic in Dafny

A model of the decision logic inside Snooby's view layer. Snooby is a mobile
Reddit client whose screens render listings and comment trees from the Reddit
JSON API. The project models four parts:

- **Post formatting** (`bbr.formatPost`). It covers self-post detection, the
  domain-shortening heuristic with its exact JavaScript string semantics,
  thumbnail eligibility, and the title anchor and NSFW-badge decision.
- **Comment rendering** (`bbr.formatComment`, `_createCommentDiv`,
  `_appendReplies`, `toggleComment`). The walk is a function from a `Comment`
  tree to the sequence of rendered elements, in creation order. Each element
  carries its id, parent id, class, score text, OP marking and collapse state,
  plus where it is attached.
- **The subreddit screen** (`onScreenReady`, `onDomReady`, `onUnload`,
  `scrollback`). Each hook is a transition on the string-keyed scratch cache.
- **Reply composition and the comments screen** (`_comment.save`,
  `commentsScreenReady`, the screen's own `toggleComment`). Shared objects
  (links, and the comments a reply can answer) live in a heap. The cache
  holds their addresses, and a cached listing holds the addresses of its
  posts, so reference identity and in-place updates are explicit.

Modules: `Wrappers` (Option), `JsStrings` (`lastIndexOf`, `substring`,
`split`/`join`, integer printing), `Things` (the data model), `PostFormat`,
`CommentRender`, `CommentRenderAsWritten`, `ScreenCache`, `SubredditScreen`,
`CommentCompose` and `CommentsScreen`.

Behaviour of the code that is easy to misread:

- The reply walk runs whenever `replies.data` is defined, even when the list
  is empty.
- A domain of 11 to 20 characters with no dot shortens to the empty string,
  because `substring(0, -1)` clamps to 0.
- The replay branch of `onDomReady` schedules one `scrollback` per cached
  post. With an empty cached listing it schedules none.
- The comment walk as written raises on any comment scoring below -4. See
  Findings.

## Model

| member | source | states |
|---|---|---|
| JsStrings.LastIndexOf | js/bbui-reddit.js:9-10 | the result is -1 exactly when the character is absent; otherwise it is the position of the character and no later position holds it |
| JsStrings.Substring | js/bbui-reddit.js:9-14 | for in-range bounds the result is the slice; bounds at or below 0 give the empty string (`substring(0, -1)` is `""`); the result is never longer than the input |
| JsStrings.NumberToString | js/bbui-reddit.js:82 | integers print with a leading `-` exactly when negative, followed by decimal digits only, with no leading zero except for 0 itself |
| PostFormat.ShortenDomain | js/bbui-reddit.js:7-15 | up to 10 characters: unchanged; more than 10: strictly shorter; 11 to 20: a prefix that ends just before the last dot, or `""` when there is no dot; more than 20: contains no dot |
| PostFormat.ShortenMidLengthDropsLastSegment | js/bbui-reddit.js:13-15 | compared with `split('.')`: an 11 to 20 character domain becomes all its dot-segments except the last, rejoined with dots, or `""` when it has no dot |
| PostFormat.ShortenLongKeepsSecondLevelLabel | js/bbui-reddit.js:8-12 | compared with `split('.')`: a domain over 20 characters becomes its next-to-last dot-segment (the whole remainder when only one dot existed), or `""` when it has no dot |
| PostFormat.FormatPost | js/bbui-reddit.js:2-54 | self post iff the domain is `self.` + subreddit; self-post domains are never shortened; a thumbnail is shown iff it is not one of `""`, `nsfw`, `self`, `default`; the title links to the URL iff the post is not a self post; the badge appears iff `over_18`; tapping the title opens the comments iff it is a self post; the comment count, thumbnail, subreddit, score, author and creation time are the link's own |
| PostFormat.TitleHtml | js/bbui-reddit.js:23-25 | unlinked titles start with the raw title text; linked titles are the anchor to the URL, then the title text, then `</a>`; badged titles end with the NSFW badge; the length is exactly the sum of those parts, so nothing else is added |
| PostFormat.SelfPostTitleIsPlain | js/bbui-reddit.js:5-25 | a self post's title HTML is the raw title, followed by the badge only when NSFW |
| PostFormat.FormatAll | js/subreddit.js:28-32 | a listing's posts are formatted one entry per post, in their order |
| CommentRender.ScoreText | js/bbui-reddit.js:77-82 | the displayed score starts with `+` iff the score is positive, with `-` iff it is negative, and with `0` iff it is zero; no digit string has a leading zero |
| CommentRender.ScoreTextRoundTrip | js/bbui-reddit.js:82 | reading the displayed score back gives the score |
| CommentRender.CreateCommentDiv | js/bbui-reddit.js:67-90 | the element id is the comment name; the score is ups minus downs; the author is marked as OP iff it equals the thread's OP; the element starts collapsed iff the score is below -4 |
| CommentRender.FormatComment | js/bbui-reddit.js:56-65 | a bodiless comment yields nothing; otherwise its own element goes to the callback first and exactly once, and every later element is a reply placed by its `parent_id` |
| CommentRender.AppendReplies | js/bbui-reddit.js:103-107 | nothing is walked when `replies.data` is undefined; every element produced has class `reply`, is rendered against the same OP, and is attached under its `parent_id` iff that is non-empty |
| CommentRender.WalkReplies | js/bbui-reddit.js:108-119 | every element from the children is a reply entry rendered against the same OP |
| CommentRender.WalkSingle | js/bbui-reddit.js:108-119 | a one-child list is walked exactly as that child is visited |
| CommentRender.WalkRepliesEmitsLive | js/bbui-reddit.js:108-119 | the ids rendered from a list of children are, with multiplicity, exactly the names of the children with a body and of their descendants reachable through bodied comments |
| CommentRender.RendersEveryLiveComment | js/bbui-reddit.js:56-121 | every comment reachable from the top comment through comments with a body is rendered exactly once, and nothing else is |
| CommentRender.VisitReply | js/bbui-reddit.js:109-118 | a bodiless child yields nothing at all; otherwise the child's own element, rendered from that child as a reply and placed under its `parent_id`, comes first, before its descendants |
| CommentRender.WalkRepliesRendersLive | js/bbui-reddit.js:108-119 | entry by entry, the walk over a list of children is the reply rendering of their shown comments in pre-order |
| CommentRender.RepliesRenderedFromTheirComments | js/bbui-reddit.js:56-121 | every element after the top comment is rendered from its own comment, the next shown reply in pre-order: its score is that comment's ups minus downs, it is marked OP iff that comment's author is the OP, and it starts collapsed iff that comment scores below -4 |
| CommentRender.WalkRepliesConcat | js/bbui-reddit.js:108 | children are visited in list order: the walk over a concatenation is the concatenation of the walks |
| CommentRender.DeadChildPruned | js/bbui-reddit.js:109-110 | a bodiless child removes itself and its entire subtree from the output, whatever the subtree contains |
| CommentRender.ParentRenderedBeforeReply | js/bbui-reddit.js:112-118 | in a tree whose replies name their parent, every reply's `parent_id` target was created earlier in the walk (pre-order) |
| CommentRender.ToggleComment | js/bbui-reddit.js:92-101 | `icon-angle-right` turns into `icon-angle-down` and any other icon into `icon-angle-right`; the replies are shown iff the new icon is `icon-angle-down` |
| CommentRender.CollapseThenExpand | js/bbui-reddit.js:86-101 | collapsing an element not yet collapsed hides its replies, and a second toggle shows them with the down icon |
| CommentRenderAsWritten.CreateCommentDivAsWritten | js/bbui-reddit.js:86-87 | as written, rendering raises iff the score is below -4; otherwise it gives the intended element |
| CommentRenderAsWritten.ThenLaws | js/bbui-reddit.js:108-118 | running walks one after another is associative with the empty walk as unit, and a walk that raised swallows everything after it |
| CommentRenderAsWritten.WalkRepliesAsWrittenConcat | js/bbui-reddit.js:108-118 | as written, the children after a split point are walked only if the children before it did not raise |
| CommentRenderAsWritten.AsWrittenIsPrefixOfIntended | js/bbui-reddit.js:56-121 | as written, the walk renders a prefix of the intended output, and it stops short exactly when it raises |
| CommentRenderAsWritten.AsWrittenAgreesWithoutDownvotedComments | js/bbui-reddit.js:86-87 | when no comment scores below -4, the code as written renders the intended output in full without raising |
| CommentRenderAsWritten.DownvotedReplyHidesItsSiblings | js/bbui-reddit.js:87 | a reply scoring -5 stops the walk after the top comment, so its +3 sibling is lost; the intended walk renders all three and shows the -5 reply collapsed |
| SubredditScreen.OnScreenReady | js/subreddit.js:2-11 | first visit (no `subreddit.visited`): sets visited=true, screenReady=true, domReady=false, selected=the subreddit and scrollTop=0, and touches no other key; a later visit leaves the cache unchanged |
| SubredditScreen.OnScreenReadyIdempotent | js/subreddit.js:3-11 | once the screen is initialised, calling `onScreenReady` again with any subreddit changes nothing |
| SubredditScreen.OnDomReady | js/subreddit.js:20-48 | when domReady is exactly `true`, nothing is fetched and the cached listing's posts, as their shared objects currently read, are appended in stored order, with one scrollback each (or a TypeError when no listing is cached); otherwise domReady is set to true, the subreddit is requested, and the arriving posts are appended in arrival order; domReady is true afterwards on every path |
| SubredditScreen.OnUnload | js/subreddit.js:50-52 | stores the scroll offset under `subreddit.scrollTop` and changes no other key |
| SubredditScreen.Scrollback | js/subreddit.js:54-57 | scrolls to the stored offset exactly when a number is stored |
| SubredditScreen.UnloadThenRevisitRestoresScroll | js/subreddit.js:50-57 | after any revisit, whichever branch `onDomReady` takes, the offset `scrollback` would read is the one saved on unload |
| SubredditScreen.RevisitScrollsBackToSavedOffset | js/subreddit.js:22-33 | a revisit that replays a non-empty cached listing schedules one `scrollback` per post, and each scrolls to the offset saved on unload |
| SubredditScreen.SecondVisitReplaysFromCache | js/subreddit.js:2-57 | over a whole session, the first visit fetches; a second visit replays exactly the posts the stored listing refers to without fetching, restores the saved offset and keeps the first selection; when the stored listing is the one the first visit received, the second visit shows the same posts in the same order |
| CommentCompose.OnScreenReady | www/js/comment.js:2-4 | stores the parent under `comment.parent` and changes no other key and no object; when the parent names a live object, every cached reference still does |
| CommentCompose.Increment | www/js/comment.js:25 | `++` adds one to a number and turns an absent or NaN counter into NaN |
| CommentCompose.Save | www/js/comment.js:21-41 | a parent that is not an object raises with no change; otherwise the parent's counter is incremented exactly once, whether it is a link or a comment (a comment's absent counter becomes NaN); the OP's counter is incremented iff `comment.op` exists and is a different object, so no object is counted twice; no object appears or disappears and no field other than these counters changes; on completion the only cache write is `comment.created`, a `t1` with parent_id = the parent's name, id = `reply` + the parent's name, author = the user, body = the text, ups 1, downs 0 (shown as `+1`), likes true and edited false; every cached reference still names a live object afterwards |
| CommentCompose.SaveCountsEachLinkOnce | www/js/comment.js:25-28 | read as a link, every object stays a link and its reply count goes up by one exactly when it is the parent or the other OP object, otherwise not at all |
| CommentCompose.SavedReplyShowsOnReplayedListing | www/js/comment.js:25-28 | after a saved reply, replaying the cached subreddit listing shows each post's count raised by one exactly when its object was the parent or the other OP object |
| CommentsScreen.CommentsScreenReady | js/comments.js:1-13 | the title links to the URL iff the post is not a self post (domain = `self.` + subreddit) and never carries the NSFW badge; the domain and comment count pass through unchanged |
| CommentsScreen.HeaderAgreesWithListing | js/comments.js:2-9 | the header title equals the listing's title apart from the badge; the header shows the full domain where the listing shortened it |
| CommentsScreen.ToggleComment | js/comments.js:15-24 | `icon-angle-right` turns into `icon-angle-down` and hides the replies; any other icon turns into `icon-angle-right` and shows them |
| CommentsScreen.ToggleTwiceRestoresIcon | js/comments.js:17-23 | from `icon-angle-right` or `icon-angle-down`, two toggles restore the icon, and the second toggle reverses the visibility set by the first |
| CommentsScreen.ToggleTwiceFromOtherIcon | js/comments.js:19-23 | any other starting icon is not restored: two toggles leave `icon-angle-down` |
| CommentsScreen.ToggleInvertsListingHandler | js/comments.js:15-24 | for the same starting icon, this handler leaves the same icon as `bbr.toggleComment` and the opposite visibility |

## Left out

- The listing client (`snooby.login`, `logout`, `listing`, `subreddits`, `app.listing`) performs HTTP and is not part of this model. The posts it delivers are a parameter of `OnDomReady`. The listing it stores under `subreddit.listing`, and its own write of `subreddit.selected`, are not modelled; the stored listing is a parameter of the session lemma.
- DOM construction, Mustache templating, the SnuOwnd markdown renderer and moment.js relative times are not modelled. Entries carry the raw body and `created_utc` handed to them.
- Screen navigation (`bb.pushScreen`, `bb.popScreen`) is not modelled. `titleOpensComments` and the `Completed` outcome of `save` record only where navigation happens.
- The comments-button click handler of `formatPost`, which always opens the comments screen, is not modelled.
- `setTimeout` scheduling is not modelled. The number of scheduled scrollbacks is recorded, but the order in which they run is not.
- Scroll pixels are not modelled. The offset is an opaque integer.
- `createSubredditTabOption`, `switchSubreddit` and the tab building in `onScreenReady` are DOM and network glue.
- `_comment.onDomReady`, `showEditor` and `showPreview` only drive the textarea and the preview pane.
- `JSON.parse` of the persisted user is not modelled. The user record is an input.
- JavaScript numbers are modelled as unbounded integers. Precision loss above 2^53 and exponent notation from 10^21 upward are not modelled.
- Strings are sequences of characters, not UTF-16 code units.
- A comment with no `replies` field at all is not representable. The API always sends either `""` or a listing there.
- CommentCompose.Save: a cached listing or a just-created reply stored under `comment.parent` or `comment.op` is an object in JavaScript, so `save` would complete with an undefined name there. The model raises a TypeError for every value that is not a reference to a shared link or comment. The screens hand the composer only links and comments.
- CommentCompose.Save: for listings and created replies the model compares `comment.op` with `comment.parent` by value, not by identity.
- SubredditScreen.Scrollback: a non-numeric value under `subreddit.scrollTop` gives `None` (no scroll). jQuery's coercion of such a value is not modelled.

## Findings

| source | as written | input that shows it | evidently intended | confidence | as-written member | corrected member |
|---|---|---|---|---|---|---|
| js/bbui-reddit.js:86-87 | a comment scoring below -4 calls `this._toggleComment`, which `bbr` does not define (it defines `toggleComment`). The resulting TypeError aborts `formatComment` and every pending `_appendReplies` level | a top comment with a reply at ups 0, downs 5 followed by a reply at ups 3: only the top comment is rendered, and the +3 reply never appears | the comment is rendered collapsed and the walk continues | high; not executed | CommentRenderAsWritten.DownvotedReplyHidesItsSiblings | CommentRender.CreateCommentDiv |

=== FILE: comment_compose.dfy ===
/** The reply composer (`_comment.onScreenReady` and `_comment.save`). The
    thing being replied to (a link, or a comment in the thread) and the
    thread's original link are objects shared with the screens beneath, so
    the cache holds their addresses in the heap: `save` bumps the comment
    counters in place, and compares the two cached things by identity. */
module CommentCompose {
  import opened Wrappers
  import opened Things
  import opened ScreenCache
  import CommentRender
  import SubredditScreen
  import PostFormat

  const ParentKey: string := "comment.parent"
  const OpKey: string := "comment.op"
  const CreatedKey: string := "comment.created"

  /** `onScreenReady`: remembers what is being replied to. */
  function OnScreenReady(s: Session, parentThing: Value): (r: Session)
    ensures r.heap == s.heap
    ensures RefsResolve(s.cache, s.heap) && Resolves(parentThing, s.heap) ==>
              RefsResolve(r.cache, r.heap)
    ensures ParentKey in r.cache && r.cache[ParentKey] == parentThing
    ensures SameOutside(s.cache, r.cache, {ParentKey})
  {
    Session(s.cache[ParentKey := parentThing], s.heap)
  }

  datatype SaveOutcome = Completed | Threw(err: JsError)

  /** The session after `save`; on Completed the composer pops itself. */
  datatype Saved = Saved(session: Session, outcome: SaveOutcome)

  /** `save` reads `data` from the parent: only a reference to a shared
      object has one. */
  predicate ParentIsThing(s: Session) {
    ParentKey in s.cache && s.cache[ParentKey].VRef?
  }

  /** The second counter `save` bumps: the cached OP entry, when there is one
      and it is not the very object the parent is. */
  predicate OpIsOtherObject(s: Session)
    requires ParentIsThing(s)
  {
    OpKey in s.cache && s.cache[OpKey] != s.cache[ParentKey]
  }

  /** Whether `save` bumps the counter of the object at `x`: it is the
      parent, or it is the OP link and a different object. */
  predicate Bumped(s: Session, x: Addr)
    requires ParentIsThing(s)
  {
    x == s.cache[ParentKey].addr || (OpIsOtherObject(s) && s.cache[OpKey] == VRef(x))
  }

  /** JavaScript's `++` on a property: numbers go up by one, an absent
      property becomes NaN, and NaN stays NaN. */
  function Increment(c: Counter): (r: Counter)
    ensures r.Count? <==> c.Count?
    ensures c.Count? ==> r.n == c.n + 1
    ensures !c.Count? ==> r == NaN
  {
    match c
    case Count(n) => Count(n + 1)
    case Undefined => NaN
    case NaN => NaN
  }

  /** `thing.data.num_comments++`. */
  function Bump(t: Thing): (r: Thing)
    ensures WithoutCounter(r) == WithoutCounter(t)
    ensures CounterOf(r) == Increment(CounterOf(t))
    ensures ThingName(r) == ThingName(t)
  {
    match t
    case LinkThing(l) => LinkThing(l.(numComments := l.numComments + 1))
    case CommentThing(c, n) => CommentThing(c, Increment(n))
  }

  /** The heap once `save` has incremented the parent's counter and, when
      `withOp`, the OP's: every object keeps its fields but the counter. */
  function BumpCounters(s: Session, withOp: bool): (heap: Heap)
    requires RefsResolve(s.cache, s.heap) && ParentIsThing(s)
    requires withOp ==> OpIsOtherObject(s) && s.cache[OpKey].VRef?
    ensures heap.Keys == s.heap.Keys
    ensures forall x :: x in s.heap ==> WithoutCounter(heap[x]) == WithoutCounter(s.heap[x])
    ensures forall x :: x in s.heap ==>
              CounterOf(heap[x])
              == if x == s.cache[ParentKey].addr || (withOp && s.cache[OpKey] == VRef(x))
                 then Increment(CounterOf(s.heap[x])) else CounterOf(s.heap[x])
  {
    var a := s.cache[ParentKey].addr;
    var heap := s.heap[a := Bump(s.heap[a])];
    if withOp then
      var b := s.cache[OpKey].addr;
      heap[b := Bump(heap[b])]
    else heap
  }

  /** Changing counters only keeps the heap closed. */
  lemma CountersOnlyResolve(cache: Cache, heap: Heap, heap': Heap)
    requires RefsResolve(cache, heap)
    requires heap'.Keys == heap.Keys
    requires forall x :: x in heap ==> WithoutCounter(heap'[x]) == WithoutCounter(heap[x])
    ensures RefsResolve(cache, heap')
  {
    forall x | x in heap
      ensures IsLinkAt(heap', x) <==> IsLinkAt(heap, x)
    {
      assert WithoutCounter(heap'[x]) == WithoutCounter(heap[x]);
    }
  }

  /** `save(textarea)`: `user` is the persisted signed-in user and `text`
      the textarea's contents. */
  function Save(s: Session, user: User, text: string): (r: Saved)
    requires RefsResolve(s.cache, s.heap)
    // A parent that is not an object: reading its `data.num_comments` raises, nothing changes.
    ensures !ParentIsThing(s) ==> r.outcome.Threw? && r.session == s
    // No object appears or disappears, and no field other than a counter changes.
    ensures r.session.heap.Keys == s.heap.Keys
    ensures forall x :: x in s.heap ==> WithoutCounter(r.session.heap[x]) == WithoutCounter(s.heap[x])
    // The parent's counter, and the OP's when it is another object, go up
    // once each; every other counter stays: nothing is counted twice.
    ensures ParentIsThing(s) ==>
              forall x :: x in s.heap ==>
                CounterOf(r.session.heap[x])
                == if Bumped(s, x) then Increment(CounterOf(s.heap[x])) else CounterOf(s.heap[x])
    // An OP entry that is not an object raises after the parent was bumped.
    ensures ParentIsThing(s) && OpIsOtherObject(s) && !s.cache[OpKey].VRef? ==>
              r.outcome.Threw? && r.session.cache == s.cache
    ensures r.outcome.Completed? <==> ParentIsThing(s) && (!OpIsOtherObject(s) || s.cache[OpKey].VRef?)
    // The only cache write is the created comment, a reply to the parent.
    ensures r.outcome.Completed? ==>
              var name := ThingName(s.heap[s.cache[ParentKey].addr]);
              && SameOutside(s.cache, r.session.cache, {CreatedKey})
              && CreatedKey in r.session.cache
              && r.session.cache[CreatedKey].VComment?
              && var n := r.session.cache[CreatedKey].comment;
                 && n.kind == "t1"
                 && n.parentId == name
                 && n.id == "reply" + name
                 && n.author == user.username
                 && n.body == text
                 && n.ups == 1 && n.downs == 0
                 && n.likes && !n.edited
                 && CommentRender.ScoreText(n.ups - n.downs) == "+1"
    ensures r.outcome.Threw? ==> r.session.cache == s.cache
    // Whatever happens, every cached reference still names a live object.
    ensures RefsResolve(r.session.cache, r.session.heap)
  {
    if !ParentIsThing(s) then
      Saved(s, Threw(TypeError("cannot read 'num_comments' of the cached parent")))
    else if OpIsOtherObject(s) && !s.cache[OpKey].VRef? then
      var heap := BumpCounters(s, false);
      CountersOnlyResolve(s.cache, s.heap, heap);
      Saved(Session(s.cache, heap), Threw(TypeError("cannot read 'num_comments' of the cached OP")))
    else
      var heap := BumpCounters(s, OpIsOtherObject(s));
      CountersOnlyResolve(s.cache, s.heap, heap);
      var name := ThingName(s.heap[s.cache[ParentKey].addr]);
      var created := NewComment("t1", true, "reply" + name, user.username,
                                name, false, text, 0, 1);
      PlainWriteResolves(s.cache, heap, CreatedKey, VComment(created));
      Saved(Session(s.cache[CreatedKey := VComment(created)], heap), Completed)
  }

  /** Read as links: every link's reply count goes up by one exactly when
      `save` bumps it, and every link stays a link. */
  lemma SaveCountsEachLinkOnce(s: Session, user: User, text: string, x: Addr)
    requires RefsResolve(s.cache, s.heap) && ParentIsThing(s)
    requires IsLinkAt(s.heap, x)
    ensures var r := Save(s, user, text).session;
            && IsLinkAt(r.heap, x)
            && r.heap[x].link.numComments == s.heap[x].link.numComments + (if Bumped(s, x) then 1 else 0)
  {
    var r := Save(s, user, text).session;
    assert WithoutCounter(r.heap[x]) == WithoutCounter(s.heap[x]);
    assert CounterOf(r.heap[x]) == if Bumped(s, x) then Increment(CounterOf(s.heap[x])) else CounterOf(s.heap[x]);
  }

  /** The point of the optimistic update: once a reply is saved, returning to
      the subreddit screen replays the cached listing with the new count on
      the post replied to, and on the thread's post, each counted once. */
  lemma SavedReplyShowsOnReplayedListing(
    s: Session, user: User, text: string, subreddit: string, arrived: seq<Link>)
    requires RefsResolve(s.cache, s.heap)
    requires Save(s, user, text).outcome.Completed?
    requires SubredditScreen.DomAlreadyReady(s.cache)
    requires SubredditScreen.ListingKey in s.cache && s.cache[SubredditScreen.ListingKey].VListing?
    ensures var after := Save(s, user, text).session;
            var stored := s.cache[SubredditScreen.ListingKey].children;
            var replay := SubredditScreen.OnDomReady(after.cache, after.heap, subreddit, arrived).outcome;
            && replay.Replayed?
            && |replay.posts| == |stored|
            && forall i :: 0 <= i < |stored| ==>
                 && IsLinkAt(s.heap, stored[i])
                 && replay.posts[i].numComments
                    == s.heap[stored[i]].link.numComments + (if Bumped(s, stored[i]) then 1 else 0)
  {
    var saved := Save(s, user, text);
    var after := saved.session;
    var stored := s.cache[SubredditScreen.ListingKey].children;
    assert SameOutside(s.cache, after.cache, {CreatedKey});
    assert after.cache[SubredditScreen.ListingKey] == VListing(stored);
    assert after.cache[SubredditScreen.DomReadyKey] == VBool(true);
    var replay := SubredditScreen.OnDomReady(after.cache, after.heap, subreddit, arrived).outcome;
    forall i | 0 <= i < |stored|
      ensures IsLinkAt(s.heap, stored[i])
      ensures replay.posts[i].numComments
              == s.heap[stored[i]].link.numComments + (if Bumped(s, stored[i]) then 1 else 0)
    {
      assert Resolves(s.cache[SubredditScreen.ListingKey], s.heap);
      SaveCountsEachLinkOnce(s, user, text, stored[i]);
      assert replay.posts[i] == PostFormat.FormatPost(after.heap[stored[i]].link);
    }
  }
}

=== FILE: comment_render.dfy ===
/** `bbr.formatComment`, `bbr._createCommentDiv`, `bbr._appendReplies` and
    `bbr.toggleComment`: rendering one comment and the tree of its replies.

    The DOM is not modelled; instead the walk returns, in the order the
    elements are created, one entry per rendered comment with the attributes
    the code gives it and where the element goes: to the caller's callback
    (the top-level comment), under the element whose id is its `parent_id`,
    or nowhere (a reply whose `parent_id` is empty is created but never
    attached). */
module CommentRender {
  import opened Wrappers
  import opened JsStrings
  import opened Things

  /** Comments whose score is below this render collapsed. */
  const CollapseThreshold: int := -4

  datatype CommentClass = TopLevel | Reply

  /** The CSS class each kind of comment element gets. */
  function ClassName(k: CommentClass): string {
    match k
    case TopLevel => "comment"
    case Reply => "reply"
  }

  /** The attributes one comment element is rendered with. The markdown
      renderer and relative-time formatter are not modelled: `body` and
      `createdUtc` are what is handed to them. */
  datatype Rendered = Rendered(
    id: string,
    parentId: string,
    className: CommentClass,
    author: string,
    authorIsOp: bool,
    body: string,
    score: int,
    scoreText: string,
    collapsed: bool,
    createdUtc: int)

  datatype Placement = Callback | Under(elementId: string) | Detached

  datatype Emitted = Emitted(div: Rendered, placement: Placement)

  function Score(c: Comment): int {
    c.ups - c.downs
  }

  /** The score as displayed: an explicit `+` before positive scores. */
  function ScoreText(score: int): (t: string)
    ensures |t| >= 1
    ensures |t| >= 2 ==> t[1] != '+'
    ensures t[0] == '+' <==> score > 0
    ensures t[0] == '-' <==> score < 0
    ensures |t| >= 2 ==> t[1] != '0'
    ensures t[0] == '0' <==> score == 0
  {
    (if score > 0 then "+" else "") + NumberToString(score)
  }

  /** Reads a displayed score back. */
  function ParseScoreText(t: string): Option<int> {
    if |t| >= 1 && t[0] == '+' then ParseInteger(t[1..]) else ParseInteger(t)
  }

  /** The displayed score determines the score. */
  lemma ScoreTextRoundTrip(score: int)
    ensures ParseScoreText(ScoreText(score)) == Some(score)
  {
    NumberRoundTrip(score);
    var t := ScoreText(score);
    if score > 0 {
      assert t[1..] == NumberToString(score);
    } else {
      assert t == NumberToString(score);
      assert score >= 0 ==> IsDigit(t[0]);
    }
  }

  /** What every rendered comment satisfies relative to the thread's OP. */
  predicate Faithful(d: Rendered, op: string) {
    && (d.authorIsOp <==> d.author == op)
    && d.scoreText == ScoreText(d.score)
    && (d.collapsed <==> d.score < CollapseThreshold)
  }

  /** `_createCommentDiv`, with the collapse it evidently intends: a comment
      scoring below -4 starts collapsed. Only called on comments with a body. */
  function CreateCommentDiv(c: Comment, op: string, k: CommentClass): (d: Rendered)
    requires c.body.Some?
    ensures d.id == c.name && d.parentId == c.parentId && d.className == k
    ensures d.author == c.author && d.body == c.body.value && d.createdUtc == c.createdUtc
    ensures d.score == c.ups - c.downs
    ensures |d.scoreText| >= 1 && (d.scoreText[0] == '+' <==> c.ups > c.downs)
    ensures d.authorIsOp <==> c.author == op
    ensures d.collapsed <==> c.ups - c.downs < -4
    ensures Faithful(d, op)
  {
    var score := Score(c);
    Rendered(c.name, c.parentId, k, c.author, c.author == op, c.body.value,
             score, ScoreText(score), score < CollapseThreshold, c.createdUtc)
  }

  /** Where `_appendReplies` puts a reply's element. */
  function ReplyPlacement(d: Rendered): Placement {
    if d.parentId != "" then Under(d.parentId) else Detached
  }

  /** An entry produced by the reply walk. */
  predicate IsReplyEntry(e: Emitted, op: string) {
    && ClassName(e.div.className) == "reply"
    && e.placement == ReplyPlacement(e.div)
    && Faithful(e.div, op)
  }

  /** `formatComment`: nothing for a bodiless comment; otherwise the comment's
      own element goes to the callback first, then its replies follow. */
  function FormatComment(c: Comment, op: string): (out: seq<Emitted>)
    ensures c.body.None? ==> out == []
    ensures c.body.Some? ==> |out| >= 1 && out[0] == Emitted(CreateCommentDiv(c, op, TopLevel), Callback)
    ensures forall i :: 0 <= i < |out| ==> (out[i].placement == Callback <==> i == 0)
    ensures forall i :: 1 <= i < |out| ==> IsReplyEntry(out[i], op)
  {
    if c.body.None? then []
    else [Emitted(CreateCommentDiv(c, op, TopLevel), Callback)] + AppendReplies(c, op)
  }

  /** `_appendReplies`: walks the replies only when `replies.data` exists. */
  function AppendReplies(c: Comment, op: string): (out: seq<Emitted>)
    ensures c.replies.NoListing? ==> out == []
    ensures forall i :: 0 <= i < |out| ==> IsReplyEntry(out[i], op)
    decreases c, 0
  {
    match c.replies
    case NoListing => []
    case Listing(children) => WalkReplies(children, op)
  }

  /** The `$.each` over the children, in list order. */
  function WalkReplies(children: seq<Comment>, op: string): (out: seq<Emitted>)
    ensures forall i :: 0 <= i < |out| ==> IsReplyEntry(out[i], op)
    decreases children, 2
  {
    if |children| == 0 then []
    else VisitReply(children[0], op) + WalkReplies(children[1..], op)
  }

  /** The body of the `$.each` callback for one child: a bodiless child is
      skipped with its whole subtree; otherwise its element, then its own
      replies. */
  function VisitReply(child: Comment, op: string): (out: seq<Emitted>)
    ensures child.body.None? ==> out == []
    ensures child.body.Some? ==>
              var d := CreateCommentDiv(child, op, Reply);
              |out| >= 1 && out[0] == Emitted(d, ReplyPlacement(d))
    ensures forall i :: 0 <= i < |out| ==> IsReplyEntry(out[i], op)
    decreases child, 1
  {
    if child.body.None? then []
    else
      var d := CreateCommentDiv(child, op, Reply);
      [Emitted(d, ReplyPlacement(d))] + AppendReplies(child, op)
  }

  /** The walk over a list of children is the concatenation of the walks over
      its parts: children are visited in list order. */
  lemma {:induction false} WalkRepliesConcat(a: seq<Comment>, b: seq<Comment>, op: string)
    ensures WalkReplies(a + b, op) == WalkReplies(a, op) + WalkReplies(b, op)
    decreases |a|
  {
    if |a| == 0 {
      assert a + b == b;
    } else {
      assert (a + b)[0] == a[0];
      assert (a + b)[1..] == a[1..] + b;
      WalkRepliesConcat(a[1..], b, op);
    }
  }

  /** A bodiless child contributes nothing, whatever its subtree holds. */
  lemma DeadChildPruned(a: seq<Comment>, dead: Comment, b: seq<Comment>, op: string)
    requires dead.body.None?
    ensures WalkReplies(a + ([dead] + b), op) == WalkReplies(a, op) + WalkReplies(b, op)
  {
    WalkRepliesConcat(a, [dead] + b, op);
    DeadHeadSkipped(dead, b, op);
  }

  lemma DeadHeadSkipped(dead: Comment, b: seq<Comment>, op: string)
    requires dead.body.None?
    ensures WalkReplies([dead] + b, op) == WalkReplies(b, op)
  {
  }

  /** A one-child list is walked exactly as that child is visited. */
  lemma WalkSingle(c: Comment, op: string)
    ensures WalkReplies([c], op) == VisitReply(c, op)
  {
    assert [c][1..] == [];
  }

  /** The names of the comments the tree shows: `c` itself when it has a
      body, and below it the live names of its replies. A bodiless comment
      hides everything beneath it. */
  function LiveNames(c: Comment): multiset<string>
    decreases c, 1
  {
    if c.body.None? then multiset{} else multiset{c.name} + LiveReplyNames(c)
  }

  function LiveReplyNames(c: Comment): multiset<string>
    decreases c, 0
  {
    match c.replies
    case NoListing => multiset{}
    case Listing(children) => LiveNamesOf(children)
  }

  function LiveNamesOf(children: seq<Comment>): multiset<string>
    decreases children, 2
  {
    if |children| == 0 then multiset{} else LiveNames(children[0]) + LiveNamesOf(children[1..])
  }

  /** The ids of the rendered elements, with multiplicity. */
  function EmittedIds(out: seq<Emitted>): (ids: multiset<string>)
    ensures |ids| == |out|
  {
    if |out| == 0 then multiset{} else multiset{out[0].div.id} + EmittedIds(out[1..])
  }

  lemma {:induction false} EmittedIdsAppend(a: seq<Emitted>, b: seq<Emitted>)
    ensures EmittedIds(a + b) == EmittedIds(a) + EmittedIds(b)
    decreases |a|
  {
    if |a| == 0 {
      assert a + b == b;
    } else {
      assert (a + b)[0] == a[0];
      assert (a + b)[1..] == a[1..] + b;
      EmittedIdsAppend(a[1..], b);
    }
  }

  lemma {:induction false} AppendRepliesEmitsLive(c: Comment, op: string)
    ensures EmittedIds(AppendReplies(c, op)) == LiveReplyNames(c)
    decreases c, 0
  {
    match c.replies
    case NoListing =>
    case Listing(children) => WalkRepliesEmitsLive(children, op);
  }

  lemma {:induction false} WalkRepliesEmitsLive(children: seq<Comment>, op: string)
    ensures EmittedIds(WalkReplies(children, op)) == LiveNamesOf(children)
    decreases children, 2
  {
    if |children| != 0 {
      VisitReplyEmitsLive(children[0], op);
      WalkRepliesEmitsLive(children[1..], op);
      EmittedIdsAppend(VisitReply(children[0], op), WalkReplies(children[1..], op));
    }
  }

  lemma {:induction false} VisitReplyEmitsLive(child: Comment, op: string)
    ensures EmittedIds(VisitReply(child, op)) == LiveNames(child)
    decreases child, 1
  {
    if child.body.Some? {
      AppendRepliesEmitsLive(child, op);
      var d := CreateCommentDiv(child, op, Reply);
      EmittedIdsAppend([Emitted(d, ReplyPlacement(d))], AppendReplies(child, op));
    }
  }

  /** The walk renders every comment of the tree that is reachable through
      comments with a body, each exactly once, and nothing else. */
  lemma RendersEveryLiveComment(c: Comment, op: string)
    ensures EmittedIds(FormatComment(c, op)) == LiveNames(c)
    ensures |FormatComment(c, op)| == |LiveNames(c)|
  {
    if c.body.Some? {
      AppendRepliesEmitsLive(c, op);
      EmittedIdsAppend([Emitted(CreateCommentDiv(c, op, TopLevel), Callback)], AppendReplies(c, op));
    }
  }

  /** The comments of the tree that are shown, in pre-order: `c` itself
      when it has a body, then the shown comments of its replies. */
  function LivePreorder(c: Comment): seq<Comment>
    decreases c, 1
  {
    if c.body.None? then [] else [c] + LiveReplyPreorder(c)
  }

  function LiveReplyPreorder(c: Comment): seq<Comment>
    decreases c, 0
  {
    match c.replies
    case NoListing => []
    case Listing(children) => LivePreorderOf(children)
  }

  function LivePreorderOf(children: seq<Comment>): seq<Comment>
    decreases children, 2
  {
    if |children| == 0 then [] else LivePreorder(children[0]) + LivePreorderOf(children[1..])
  }

  /** Entry by entry, `out` is the reply rendering of the comments `xs`. */
  predicate RendersAsReplies(out: seq<Emitted>, xs: seq<Comment>, op: string) {
    && |out| == |xs|
    && forall i :: 0 <= i < |out| ==>
         xs[i].body.Some? && out[i].div == CreateCommentDiv(xs[i], op, Reply)
  }

  lemma RendersAsRepliesAppend(a: seq<Emitted>, xs: seq<Comment>, b: seq<Emitted>, ys: seq<Comment>, op: string)
    requires RendersAsReplies(a, xs, op) && RendersAsReplies(b, ys, op)
    ensures RendersAsReplies(a + b, xs + ys, op)
  {
    forall i | 0 <= i < |a + b|
      ensures (xs + ys)[i].body.Some? && (a + b)[i].div == CreateCommentDiv((xs + ys)[i], op, Reply)
    {
      if i < |a| {
        assert (a + b)[i] == a[i] && (xs + ys)[i] == xs[i];
      } else {
        assert (a + b)[i] == b[i - |a|] && (xs + ys)[i] == ys[i - |xs|];
      }
    }
  }

  lemma {:induction false} AppendRepliesRendersLive(c: Comment, op: string)
    ensures RendersAsReplies(AppendReplies(c, op), LiveReplyPreorder(c), op)
    decreases c, 0
  {
    match c.replies
    case NoListing =>
    case Listing(children) => WalkRepliesRendersLive(children, op);
  }

  lemma {:induction false} WalkRepliesRendersLive(children: seq<Comment>, op: string)
    ensures RendersAsReplies(WalkReplies(children, op), LivePreorderOf(children), op)
    decreases children, 2
  {
    if |children| != 0 {
      VisitReplyRendersLive(children[0], op);
      WalkRepliesRendersLive(children[1..], op);
      RendersAsRepliesAppend(VisitReply(children[0], op), LivePreorder(children[0]),
                             WalkReplies(children[1..], op), LivePreorderOf(children[1..]), op);
    }
  }

  lemma {:induction false} VisitReplyRendersLive(child: Comment, op: string)
    ensures RendersAsReplies(VisitReply(child, op), LivePreorder(child), op)
    decreases child, 1
  {
    if child.body.Some? {
      AppendRepliesRendersLive(child, op);
      var d := CreateCommentDiv(child, op, Reply);
      RendersAsRepliesAppend([Emitted(d, ReplyPlacement(d))], [child],
                             AppendReplies(child, op), LiveReplyPreorder(child), op);
    }
  }

  /** Every reply element is rendered from its own comment: entry `i` after
      the top comment is the intended element of the `i`-th shown reply in
      pre-order, so its score is that comment's ups minus downs, its OP mark
      comes from that comment's author, and it is collapsed exactly when
      that comment scores below -4. */
  lemma RepliesRenderedFromTheirComments(c: Comment, op: string)
    requires c.body.Some?
    ensures var out := FormatComment(c, op);
            var xs := LiveReplyPreorder(c);
            && |out| == |xs| + 1
            && forall i :: 1 <= i < |out| ==>
                 && xs[i - 1].body.Some?
                 && out[i].div == CreateCommentDiv(xs[i - 1], op, Reply)
                 && out[i].div.score == xs[i - 1].ups - xs[i - 1].downs
                 && (out[i].div.authorIsOp <==> xs[i - 1].author == op)
                 && (out[i].div.collapsed <==> xs[i - 1].ups - xs[i - 1].downs < -4)
  {
    AppendRepliesRendersLive(c, op);
    var out := FormatComment(c, op);
    var rest := AppendReplies(c, op);
    assert out == [Emitted(CreateCommentDiv(c, op, TopLevel), Callback)] + rest;
    forall i | 1 <= i < |out|
      ensures out[i] == rest[i - 1]
    {
    }
  }

  /** Each reply in the tree names its parent comment in `parentId`, as the
      API's `parent_id` fullnames do. */
  predicate WellLinked(c: Comment)
    decreases c, 0
  {
    match c.replies
    case NoListing => true
    case Listing(children) => ChildrenLinked(children, c.name)
  }

  predicate ChildrenLinked(children: seq<Comment>, parentName: string)
    decreases children, 1
  {
    |children| == 0
    || (&& children[0].parentId == parentName
        && WellLinked(children[0])
        && ChildrenLinked(children[1..], parentName))
  }

  /** Every entry either hangs directly under `root`, or under an element
      created earlier in the sequence. */
  predicate AttachedInOrder(out: seq<Emitted>, root: string) {
    forall i :: 0 <= i < |out| ==>
      out[i].div.parentId == root
      || exists j :: 0 <= j < i && out[j].div.id == out[i].div.parentId
  }

  lemma AttachedInOrderAppend(a: seq<Emitted>, b: seq<Emitted>, root: string)
    requires AttachedInOrder(a, root) && AttachedInOrder(b, root)
    ensures AttachedInOrder(a + b, root)
  {
    var s := a + b;
    forall i | 0 <= i < |s| && s[i].div.parentId != root
      ensures exists j :: 0 <= j < i && s[j].div.id == s[i].div.parentId
    {
      if i < |a| {
        var j :| 0 <= j < i && a[j].div.id == a[i].div.parentId;
        assert s[j] == a[j];
      } else {
        assert s[i] == b[i - |a|];
        var j :| 0 <= j < i - |a| && b[j].div.id == b[i - |a|].div.parentId;
        assert s[j + |a|] == b[j];
      }
    }
  }

  /** Putting the parent's own element first re-roots the order: entries that
      hung under the parent now hang under entry 0. */
  lemma AttachedInOrderUnderHead(head: Emitted, rest: seq<Emitted>, root: string)
    requires head.div.parentId == root
    requires AttachedInOrder(rest, head.div.id)
    ensures AttachedInOrder([head] + rest, root)
  {
    var s := [head] + rest;
    forall i | 0 <= i < |s| && s[i].div.parentId != root
      ensures exists j :: 0 <= j < i && s[j].div.id == s[i].div.parentId
    {
      assert i > 0 && s[i] == rest[i - 1];
      if rest[i - 1].div.parentId == head.div.id {
        assert s[0].div.id == s[i].div.parentId;
      } else {
        var j :| 0 <= j < i - 1 && rest[j].div.id == rest[i - 1].div.parentId;
        assert s[j + 1] == rest[j];
      }
    }
  }

  lemma {:induction false} AppendRepliesInOrder(c: Comment, op: string)
    requires WellLinked(c)
    ensures AttachedInOrder(AppendReplies(c, op), c.name)
    decreases c, 0
  {
    match c.replies
    case NoListing =>
    case Listing(children) =>
      WalkRepliesInOrder(children, c.name, op);
  }

  lemma {:induction false} WalkRepliesInOrder(children: seq<Comment>, parentName: string, op: string)
    requires ChildrenLinked(children, parentName)
    ensures AttachedInOrder(WalkReplies(children, op), parentName)
    decreases children, 1
  {
    if |children| != 0 {
      var child := children[0];
      if child.body.Some? {
        AppendRepliesInOrder(child, op);
        var d := CreateCommentDiv(child, op, Reply);
        AttachedInOrderUnderHead(Emitted(d, ReplyPlacement(d)), AppendReplies(child, op), parentName);
      }
      WalkRepliesInOrder(children[1..], parentName, op);
      AttachedInOrderAppend(VisitReply(child, op), WalkReplies(children[1..], op), parentName);
    }
  }

  /** Every entry after the first hangs under an element created before it. */
  predicate ParentsComeFirst(out: seq<Emitted>) {
    forall i :: 1 <= i < |out| ==> HasEarlierParent(out, i)
  }

  /** Some entry before position `i` is the element entry `i` hangs under. */
  predicate HasEarlierParent(out: seq<Emitted>, i: nat)
    requires i < |out|
  {
    exists j :: 0 <= j < i && out[j].div.id == out[i].div.parentId
  }

  /** With its own element in front, a sequence attached in order under that
      element has every later entry's parent created before it. */
  lemma HeadIsRoot(head: Emitted, rest: seq<Emitted>)
    requires AttachedInOrder(rest, head.div.id)
    ensures ParentsComeFirst([head] + rest)
  {
    var out := [head] + rest;
    forall i | 1 <= i < |out|
      ensures HasEarlierParent(out, i)
    {
      HeadIsRootAt(head, rest, i);
    }
  }

  lemma HeadIsRootAt(head: Emitted, rest: seq<Emitted>, i: nat)
    requires AttachedInOrder(rest, head.div.id)
    requires 1 <= i <= |rest|
    ensures HasEarlierParent([head] + rest, i)
  {
    var out := [head] + rest;
    assert out[i] == rest[i - 1];
    if rest[i - 1].div.parentId == head.div.id {
      assert out[0].div.id == out[i].div.parentId;
    } else {
      var j :| 0 <= j < i - 1 && rest[j].div.id == rest[i - 1].div.parentId;
      assert out[j + 1] == rest[j];
    }
  }

  /** In a well-linked tree every reply is attached under an element that was
      created before it: parents are rendered before their descendants, so the
      lookup by `parent_id` always finds its target. */
  lemma ParentRenderedBeforeReply(c: Comment, op: string)
    requires WellLinked(c) && c.body.Some?
    ensures ParentsComeFirst(FormatComment(c, op))
  {
    AppendRepliesInOrder(c, op);
    HeadIsRoot(Emitted(CreateCommentDiv(c, op, TopLevel), Callback), AppendReplies(c, op));
  }

  /** `bbr.toggleComment`: the element's icon class and whether the replies
      after it are shown once the handler has run. */
  const CollapsedIcon: string := "icon-angle-right"
  const ExpandedIcon: string := "icon-angle-down"

  datatype ToggleResult = ToggleResult(icon: string, repliesShown: bool)

  function ToggleComment(icon: string): (r: ToggleResult)
    ensures icon == CollapsedIcon ==> r.icon == ExpandedIcon
    ensures icon != CollapsedIcon ==> r.icon == CollapsedIcon
    ensures r.repliesShown <==> r.icon == ExpandedIcon
  {
    if icon == CollapsedIcon then ToggleResult(ExpandedIcon, true)
    else ToggleResult(CollapsedIcon, false)
  }

  /** Collapsing a freshly rendered (not yet collapsed) comment hides its
      replies, and toggling again brings them back. */
  lemma CollapseThenExpand(icon: string)
    requires icon != CollapsedIcon
    ensures !ToggleComment(icon).repliesShown
    ensures ToggleComment(ToggleComment(icon).icon) == ToggleResult(ExpandedIcon, true)
  {
  }
}

=== FILE: comment_render_as_written.dfy ===
/** The comment walk exactly as `bbr._createCommentDiv` is written: for a
    score below -4 it calls `this._toggleComment`, which the object does not
    define (it defines `toggleComment`), so the call raises a TypeError. The
    exception leaves `formatComment`, and every pending `_appendReplies`
    level, at once: nothing after the offending comment is rendered. */
module CommentRenderAsWritten {
  import opened Wrappers
  import opened Things
  import opened CommentRender

  const MissingToggle: JsError := TypeError("this._toggleComment is not a function")

  /** What a walk rendered before it stopped, and the exception it stopped
      with, if any. */
  datatype Walk = Walk(emitted: seq<Emitted>, thrown: Option<JsError>)

  const Nothing: Walk := Walk([], None)

  /** Runs `next` after `first` unless `first` raised. */
  function Then(first: Walk, next: Walk): (w: Walk)
    ensures first.thrown.Some? ==> w == first
    ensures first.thrown.None? ==> w.emitted == first.emitted + next.emitted && w.thrown == next.thrown
  {
    if first.thrown.Some? then first else Walk(first.emitted + next.emitted, next.thrown)
  }

  /** Sequencing walks is a monoid with the empty walk as unit: a walk may
      be split into runs at any point, and an exception raised in one run
      swallows every later run. */
  lemma ThenLaws(a: Walk, b: Walk, c: Walk)
    ensures Then(Nothing, a) == a
    ensures Then(a, Nothing) == a
    ensures Then(Then(a, b), c) == Then(a, Then(b, c))
    ensures a.thrown.Some? ==> Then(a, b) == a
  {
    assert Then(a, Nothing).emitted == a.emitted + [];
    if a.thrown.None? && b.thrown.None? {
      assert (a.emitted + b.emitted) + c.emitted == a.emitted + (b.emitted + c.emitted);
    }
  }

  datatype Attempt = Made(div: Rendered) | Raised(err: JsError)

  /** `_createCommentDiv` as written: rendering succeeds, uncollapsed, unless
      the score is below -4, where the misspelt call raises. */
  function CreateCommentDivAsWritten(c: Comment, op: string, k: CommentClass): (r: Attempt)
    requires c.body.Some?
    ensures r.Raised? <==> c.ups - c.downs < -4
    ensures r.Made? ==> r.div == CreateCommentDiv(c, op, k)
  {
    var score := Score(c);
    if score < CollapseThreshold then Raised(MissingToggle)
    else Made(Rendered(c.name, c.parentId, k, c.author, c.author == op, c.body.value,
                       score, ScoreText(score), false, c.createdUtc))
  }

  function FormatCommentAsWritten(c: Comment, op: string): Walk {
    if c.body.None? then Nothing
    else
      match CreateCommentDivAsWritten(c, op, TopLevel)
      case Raised(e) => Walk([], Some(e))
      case Made(d) => Then(Walk([Emitted(d, Callback)], None), AppendRepliesAsWritten(c, op))
  }

  function AppendRepliesAsWritten(c: Comment, op: string): Walk
    decreases c, 0
  {
    match c.replies
    case NoListing => Nothing
    case Listing(children) => WalkRepliesAsWritten(children, op)
  }

  function WalkRepliesAsWritten(children: seq<Comment>, op: string): Walk
    decreases children, 2
  {
    if |children| == 0 then Nothing
    else Then(VisitReplyAsWritten(children[0], op), WalkRepliesAsWritten(children[1..], op))
  }

  function VisitReplyAsWritten(child: Comment, op: string): Walk
    decreases child, 1
  {
    if child.body.None? then Nothing
    else
      match CreateCommentDivAsWritten(child, op, Reply)
      case Raised(e) => Walk([], Some(e))
      case Made(d) => Then(Walk([Emitted(d, ReplyPlacement(d))], None), AppendRepliesAsWritten(child, op))
  }

  /** The `$.each` over the children as written: the walk over a
      concatenation runs the walk over the second part only when the first
      part did not raise. */
  lemma {:induction false} WalkRepliesAsWrittenConcat(a: seq<Comment>, b: seq<Comment>, op: string)
    ensures WalkRepliesAsWritten(a + b, op) == Then(WalkRepliesAsWritten(a, op), WalkRepliesAsWritten(b, op))
    decreases |a|
  {
    if |a| == 0 {
      assert a + b == b;
      ThenLaws(WalkRepliesAsWritten(b, op), Nothing, Nothing);
    } else {
      assert (a + b)[0] == a[0];
      assert (a + b)[1..] == a[1..] + b;
      WalkRepliesAsWrittenConcat(a[1..], b, op);
      ThenLaws(VisitReplyAsWritten(a[0], op), WalkRepliesAsWritten(a[1..], op), WalkRepliesAsWritten(b, op));
    }
  }

  /** A partial walk `w` relates to the intended output `full`: it rendered a
      prefix of it, and stopped short exactly when it raised. */
  predicate PrefixOf(w: Walk, full: seq<Emitted>) {
    && |w.emitted| <= |full|
    && w.emitted == full[..|w.emitted|]
    && (w.thrown.None? <==> |w.emitted| == |full|)
  }

  lemma ThenPrefix(first: Walk, next: Walk, ff: seq<Emitted>, nf: seq<Emitted>)
    requires PrefixOf(first, ff) && PrefixOf(next, nf)
    ensures PrefixOf(Then(first, next), ff + nf)
  {
    if first.thrown.None? {
      assert first.emitted == ff;
      assert (ff + nf)[..|ff| + |next.emitted|] == ff + nf[..|next.emitted|];
    } else {
      assert (ff + nf)[..|first.emitted|] == ff[..|first.emitted|];
    }
  }

  lemma {:induction false} AppendRepliesPrefix(c: Comment, op: string)
    ensures PrefixOf(AppendRepliesAsWritten(c, op), AppendReplies(c, op))
    decreases c, 0
  {
    match c.replies
    case NoListing =>
    case Listing(children) => WalkRepliesPrefix(children, op);
  }

  lemma {:induction false} WalkRepliesPrefix(children: seq<Comment>, op: string)
    ensures PrefixOf(WalkRepliesAsWritten(children, op), WalkReplies(children, op))
    decreases children, 2
  {
    if |children| != 0 {
      VisitReplyPrefix(children[0], op);
      WalkRepliesPrefix(children[1..], op);
      ThenPrefix(VisitReplyAsWritten(children[0], op), WalkRepliesAsWritten(children[1..], op),
                 VisitReply(children[0], op), WalkReplies(children[1..], op));
    }
  }

  lemma {:induction false} VisitReplyPrefix(child: Comment, op: string)
    ensures PrefixOf(VisitReplyAsWritten(child, op), VisitReply(child, op))
    decreases child, 1
  {
    if child.body.Some? {
      var a := CreateCommentDivAsWritten(child, op, Reply);
      if a.Made? {
        AppendRepliesPrefix(child, op);
        var e := Emitted(a.div, ReplyPlacement(a.div));
        ThenPrefix(Walk([e], None), AppendRepliesAsWritten(child, op), [e], AppendReplies(child, op));
      }
    }
  }

  /** As written, the walk renders exactly what the intended walk renders up
      to the first comment scoring below -4, and stops there with the
      TypeError; with no such comment it renders everything. */
  lemma AsWrittenIsPrefixOfIntended(c: Comment, op: string)
    ensures PrefixOf(FormatCommentAsWritten(c, op), FormatComment(c, op))
  {
    if c.body.Some? {
      var a := CreateCommentDivAsWritten(c, op, TopLevel);
      if a.Made? {
        AppendRepliesPrefix(c, op);
        var e := Emitted(a.div, Callback);
        ThenPrefix(Walk([e], None), AppendRepliesAsWritten(c, op), [e], AppendReplies(c, op));
      }
    }
  }

  /** Every comment of the tree, bodiless or not, scores at least -4. */
  predicate NoneBelowThreshold(c: Comment)
    decreases c, 0
  {
    && c.ups - c.downs >= CollapseThreshold
    && match c.replies
       case NoListing => true
       case Listing(children) => ChildrenNoneBelow(children)
  }

  predicate ChildrenNoneBelow(children: seq<Comment>)
    decreases children, 1
  {
    |children| == 0 || (NoneBelowThreshold(children[0]) && ChildrenNoneBelow(children[1..]))
  }

  lemma {:induction false} AppendRepliesNoThrow(c: Comment, op: string)
    requires NoneBelowThreshold(c)
    ensures AppendRepliesAsWritten(c, op).thrown.None?
    decreases c, 0
  {
    match c.replies
    case NoListing =>
    case Listing(children) => WalkRepliesNoThrow(children, op);
  }

  lemma {:induction false} WalkRepliesNoThrow(children: seq<Comment>, op: string)
    requires ChildrenNoneBelow(children)
    ensures WalkRepliesAsWritten(children, op).thrown.None?
    decreases children, 1
  {
    if |children| != 0 {
      var child := children[0];
      if child.body.Some? {
        AppendRepliesNoThrow(child, op);
      }
      WalkRepliesNoThrow(children[1..], op);
    }
  }

  /** On threads where nothing scores below -4 the defect never shows: the
      code as written renders the intended output in full. */
  lemma AsWrittenAgreesWithoutDownvotedComments(c: Comment, op: string)
    requires NoneBelowThreshold(c)
    ensures FormatCommentAsWritten(c, op) == Walk(FormatComment(c, op), None)
  {
    AsWrittenIsPrefixOfIntended(c, op);
    if c.body.Some? {
      AppendRepliesNoThrow(c, op);
    }
  }

  /** The input that shows the defect: a reply scoring -5 stops the walk, so
      its later sibling, scoring +3, is never rendered, while the intended
      walk renders both and shows the first collapsed. */
  lemma DownvotedReplyHidesItsSiblings()
    ensures var bad := Comment("t1_b", "t1_a", "carol", Some("no"), 0, 5, 0, NoListing);
            var good := Comment("t1_c", "t1_a", "dave", Some("yes"), 3, 0, 0, NoListing);
            var top := Comment("t1_a", "t3_x", "bob", Some("hi"), 1, 0, 0, Listing([bad, good]));
            var w := FormatCommentAsWritten(top, "bob");
            var full := FormatComment(top, "bob");
            && w.thrown == Some(MissingToggle)
            && |w.emitted| == 1
            && |full| == 3
            && full[1].div.collapsed
            && full[2].div.id == "t1_c"
  {
  }
}

=== FILE: comments_screen.dfy ===
/** The comments screen's header (`commentsScreenReady`) and its own
    collapse handler (`toggleComment`). */
module CommentsScreen {
  import opened Wrappers
  import opened Things
  import opened PostFormat
  import CommentRender

  /** What the link header is rendered from. */
  datatype Header = Header(title: TitleMarkup, domain: string, numComments: int)

  /** `commentsScreenReady`: the title decision of the listing, without the
      NSFW badge, and the domain as received. */
  function CommentsScreenReady(link: Link): (h: Header)
    ensures h.title.text == link.title
    ensures h.title.href.Some? <==> !IsSelfPost(link)
    ensures h.title.href.Some? ==> h.title.href.value == link.url
    ensures !h.title.nsfwBadge
    ensures h.domain == link.domain && h.numComments == link.numComments
  {
    var selfPost := IsSelfPost(link);
    Header(TitleMarkup(link.title, if selfPost then None else Some(link.url), false),
           link.domain, link.numComments)
  }

  /** The header and the listing entry agree on the title except for the
      badge; the header shows the full domain where the listing shortened it. */
  lemma HeaderAgreesWithListing(link: Link)
    ensures CommentsScreenReady(link).title == FormatPost(link).title.(nsfwBadge := false)
    ensures !IsSelfPost(link) && |link.domain| > 10 ==>
              |FormatPost(link).domain| < |CommentsScreenReady(link).domain|
    ensures IsSelfPost(link) || |link.domain| <= 10 ==>
              FormatPost(link).domain == CommentsScreenReady(link).domain
  {
  }

  /** `toggleComment` of the comments screen: the same icon flip as the
      listing's handler, with show and hide the other way round. */
  function ToggleComment(icon: string): (r: CommentRender.ToggleResult)
    ensures icon == CommentRender.CollapsedIcon ==> r.icon == CommentRender.ExpandedIcon && !r.repliesShown
    ensures icon != CommentRender.CollapsedIcon ==> r.icon == CommentRender.CollapsedIcon && r.repliesShown
  {
    if icon == CommentRender.CollapsedIcon then CommentRender.ToggleResult(CommentRender.ExpandedIcon, false)
    else CommentRender.ToggleResult(CommentRender.CollapsedIcon, true)
  }

  /** From either icon state, two toggles restore the icon and the visibility
      the first toggle set is undone by the second. */
  lemma ToggleTwiceRestoresIcon(icon: string)
    requires icon == CommentRender.CollapsedIcon || icon == CommentRender.ExpandedIcon
    ensures var once := ToggleComment(icon);
            var twice := ToggleComment(once.icon);
            twice.icon == icon && twice.repliesShown == !once.repliesShown
  {
  }

  /** Any other icon class is not restored: it settles into the two-state cycle. */
  lemma ToggleTwiceFromOtherIcon(icon: string)
    requires icon != CommentRender.CollapsedIcon && icon != CommentRender.ExpandedIcon
    ensures ToggleComment(ToggleComment(icon).icon).icon == CommentRender.ExpandedIcon
  {
  }

  /** Against the listing's handler: the same icon afterwards, the opposite
      visibility. */
  lemma ToggleInvertsListingHandler(icon: string)
    ensures ToggleComment(icon).icon == CommentRender.ToggleComment(icon).icon
    ensures ToggleComment(icon).repliesShown == !CommentRender.ToggleComment(icon).repliesShown
  {
  }
}

=== FILE: js_strings.dfy ===
/** The JavaScript string and number primitives the formatting code relies on,
    with the ECMAScript edge cases written out: `lastIndexOf` answers -1 when
    the needle is missing, `substring` clamps its bounds into the string and
    swaps them when reversed, and integers print in plain decimal. */
module JsStrings {
  import opened Wrappers

  /** The greatest index below `n` holding `c`, or -1. */
  function LastIndexBelow(s: string, c: char, n: nat): (r: int)
    requires n <= |s|
    ensures -1 <= r < n
    ensures 0 <= r ==> s[r] == c
    ensures forall i :: r < i < n ==> s[i] != c
    decreases n
  {
    if n == 0 then -1
    else if s[n - 1] == c then n - 1
    else LastIndexBelow(s, c, n - 1)
  }

  /** `s.lastIndexOf(c)` for a one-character needle: -1 when it is absent. */
  function LastIndexOf(s: string, c: char): (r: int)
    ensures -1 <= r < |s|
    ensures r == -1 <==> c !in s
    ensures 0 <= r ==> s[r] == c && c !in s[r + 1..]
  {
    LastIndexBelow(s, c, |s|)
  }

  /** One argument of `substring`, clamped into [0, len]. */
  function ClampIndex(i: int, len: nat): (r: nat)
    ensures r <= len
    ensures 0 <= i <= len ==> r == i
    ensures i <= 0 ==> r == 0
  {
    if i < 0 then 0 else if i > len then len else i
  }

  /** `s.substring(start, end)`: both bounds clamped, and swapped when the
      first exceeds the second. */
  function Substring(s: string, start: int, end: int): (r: string)
    ensures |r| <= |s|
    ensures 0 <= start <= end <= |s| ==> r == s[start..end]
    ensures start <= 0 && end <= 0 ==> r == []
  {
    var a := ClampIndex(start, |s|);
    var b := ClampIndex(end, |s|);
    if a <= b then s[a..b] else s[b..a]
  }

  /** `s.substring(start)`: the end defaults to the length. */
  function SubstringFrom(s: string, start: int): (r: string)
    ensures 0 <= start <= |s| ==> r == s[start..]
  {
    Substring(s, start, |s|)
  }

  /** Splitting the rest `s` of a string while `piece` holds the characters
      collected since the last separator. */
  function SplitFrom(s: string, piece: string, c: char): (r: seq<string>)
    ensures |r| >= 1
    decreases |s|
  {
    if |s| == 0 then [piece]
    else if s[0] == c then [piece] + SplitFrom(s[1..], "", c)
    else SplitFrom(s[1..], piece + [s[0]], c)
  }

  /** `s.split(c)` for a one-character separator: the separator-free pieces,
      left to right; an empty string splits into one empty piece. */
  function Split(s: string, c: char): (r: seq<string>)
    ensures |r| >= 1
  {
    SplitFrom(s, "", c)
  }

  /** `parts.join(c)`. */
  function Join(parts: seq<string>, c: char): string
    requires |parts| >= 1
    decreases |parts|
  {
    if |parts| == 1 then parts[0] else parts[0] + [c] + Join(parts[1..], c)
  }

  lemma {:induction false} JoinSplitFrom(s: string, piece: string, c: char)
    ensures Join(SplitFrom(s, piece, c), c) == piece + s
    decreases |s|
  {
    if |s| != 0 {
      JoinSplitFrom(s[1..], if s[0] == c then "" else piece + [s[0]], c);
      assert s == [s[0]] + s[1..];
      if s[0] == c {
        var rest := SplitFrom(s[1..], "", c);
        assert ([piece] + rest)[1..] == rest;
      }
    }
  }

  /** Joining the pieces of a split with the same separator gives the string back. */
  lemma JoinSplit(s: string, c: char)
    ensures Join(Split(s, c), c) == s
  {
    JoinSplitFrom(s, "", c);
  }

  lemma {:induction false} SplitFromWithoutSeparator(s: string, piece: string, c: char)
    requires c !in s
    ensures SplitFrom(s, piece, c) == [piece + s]
    decreases |s|
  {
    if |s| != 0 {
      assert s[0] != c && c !in s[1..];
      SplitFromWithoutSeparator(s[1..], piece + [s[0]], c);
      assert SplitFrom(s, piece, c) == SplitFrom(s[1..], piece + [s[0]], c);
      assert s == [s[0]] + s[1..];
      assert piece + [s[0]] + s[1..] == piece + s;
    } else {
      assert piece + s == piece;
    }
  }

  /** Splitting around one separator occurrence concatenates the two splits. */
  lemma {:induction false} SplitFromAround(a: string, b: string, piece: string, c: char)
    ensures SplitFrom(a + [c] + b, piece, c) == SplitFrom(a, piece, c) + SplitFrom(b, "", c)
    decreases |a|
  {
    var s := a + [c] + b;
    if |a| == 0 {
      assert s[0] == c && s[1..] == b;
    } else {
      assert s[0] == a[0] && s[1..] == a[1..] + [c] + b;
      if a[0] == c {
        SplitFromAround(a[1..], b, "", c);
      } else {
        SplitFromAround(a[1..], b, piece + [a[0]], c);
      }
    }
  }

  /** A string free of the separator splits into itself alone. */
  lemma SplitWithoutSeparator(s: string, c: char)
    requires c !in s
    ensures Split(s, c) == [s]
  {
    SplitFromWithoutSeparator(s, "", c);
    assert "" + s == s;
  }

  /** Cutting at the last separator: the final piece is what follows it. */
  lemma SplitAtLast(s: string, c: char)
    requires c in s
    ensures var k := LastIndexOf(s, c);
            0 <= k && Split(s, c) == Split(s[..k], c) + [s[k + 1..]]
  {
    var k := LastIndexOf(s, c);
    assert s == s[..k] + [c] + s[k + 1..];
    SplitFromAround(s[..k], s[k + 1..], "", c);
    SplitFromWithoutSeparator(s[k + 1..], "", c);
    assert "" + s[k + 1..] == s[k + 1..];
  }

  /** A string splits into more than one piece exactly when it holds the separator. */
  lemma SplitCount(s: string, c: char)
    ensures |Split(s, c)| == 1 <==> c !in s
  {
    if c in s {
      SplitAtLast(s, c);
    } else {
      SplitFromWithoutSeparator(s, "", c);
    }
  }

  predicate IsDigit(ch: char) {
    '0' <= ch <= '9'
  }

  predicate AllDigits(s: string) {
    forall i :: 0 <= i < |s| ==> IsDigit(s[i])
  }

  function DigitChar(d: nat): (ch: char)
    requires d < 10
    ensures IsDigit(ch)
  {
    (48 + d) as char
  }

  /** The decimal digits of a natural number, most significant first, with no
      leading zero: what `String(n)` prints for integers below 10^21. */
  function NatToDecimal(n: nat): (r: string)
    ensures |r| >= 1
    ensures AllDigits(r)
    ensures |r| > 1 ==> r[0] != '0'
    decreases n
  {
    if n < 10 then [DigitChar(n)]
    else
      var init := NatToDecimal(n / 10);
      init + [DigitChar(n % 10)]
  }

  /** The value of a string of decimal digits. */
  function DecimalValue(s: string): nat
    requires AllDigits(s)
    decreases |s|
  {
    if |s| == 0 then 0
    else DecimalValue(s[..|s| - 1]) * 10 + (s[|s| - 1] as int - 48)
  }

  /** Printing a natural number in decimal and reading it back is the identity. */
  lemma {:induction false} DecimalRoundTrip(n: nat)
    ensures DecimalValue(NatToDecimal(n)) == n
    decreases n
  {
    if n >= 10 {
      DecimalRoundTrip(n / 10);
      var s := NatToDecimal(n);
      assert s[..|s| - 1] == NatToDecimal(n / 10);
    }
  }

  /** `String(n)` for an integer-valued Number: a minus sign for negatives,
      then the decimal digits of the magnitude. */
  function NumberToString(n: int): (r: string)
    ensures |r| >= 1
    ensures r[0] == '-' <==> n < 0
    ensures n >= 0 ==> AllDigits(r)
    ensures n < 0 ==> |r| >= 2 && AllDigits(r[1..])
    ensures n >= 0 && |r| > 1 ==> r[0] != '0'
    ensures n < 0 ==> r[1] != '0'
  {
    if n < 0 then "-" + NatToDecimal(-n) else NatToDecimal(n)
  }

  /** Reads an optionally signed decimal integer; None on anything else. */
  function ParseInteger(s: string): (r: Option<int>)
  {
    if |s| >= 1 && s[0] == '-' && |s| >= 2 && AllDigits(s[1..]) then Some(-(DecimalValue(s[1..]) as int))
    else if |s| >= 1 && AllDigits(s) then Some(DecimalValue(s) as int)
    else None
  }

  /** Reading back what `NumberToString` prints recovers the number. */
  lemma NumberRoundTrip(n: int)
    ensures ParseInteger(NumberToString(n)) == Some(n)
  {
    if n < 0 {
      DecimalRoundTrip(-n);
      assert NumberToString(n)[1..] == NatToDecimal(-n);
    } else {
      DecimalRoundTrip(n);
    }
  }
}

=== FILE: post_format.dfy ===
/** `bbr.formatPost`: the decisions that turn one link into a listing entry. */
module PostFormat {
  import opened Wrappers
  import opened JsStrings
  import opened Things

  /** Thumbnail values that mean "no picture to show". */
  const ThumbnailSentinels: set<string> := {"", "nsfw", "self", "default"}

  const NsfwBadge: string := " <span class=\"label label-important nsfw\">nsfw</span>"

  /** A self post is one whose domain is `self.` followed by its own subreddit. */
  predicate IsSelfPost(link: Link) {
    link.domain == "self." + link.subreddit
  }

  /** The title decision: plain text, or an anchor to `href`, optionally
      followed by the NSFW badge. */
  datatype TitleMarkup = TitleMarkup(text: string, href: Option<string>, nsfwBadge: bool)

  function AnchorOpen(url: string): string {
    "<a href=\"" + url + "\">"
  }

  /** The HTML the title markup stands for. */
  function TitleHtml(t: TitleMarkup): (html: string)
    ensures t.href.None? ==> |t.text| <= |html| && html[..|t.text|] == t.text
    ensures t.href.None? && !t.nsfwBadge ==> html == t.text
    ensures t.href.Some? ==> |AnchorOpen(t.href.value)| <= |html|
                             && html[..|AnchorOpen(t.href.value)|] == AnchorOpen(t.href.value)
    ensures t.href.Some? ==>
              var a := |AnchorOpen(t.href.value)|;
              && a + |t.text| + 4 <= |html|
              && html[a..a + |t.text|] == t.text
              && html[a + |t.text|..a + |t.text| + 4] == "</a>"
    ensures t.nsfwBadge ==> |NsfwBadge| <= |html| && html[|html| - |NsfwBadge|..] == NsfwBadge
    ensures |html| == (if t.href.Some? then |AnchorOpen(t.href.value)| + 4 else 0) + |t.text|
                      + (if t.nsfwBadge then |NsfwBadge| else 0)
  {
    var core := if t.href.Some? then AnchorOpen(t.href.value) + t.text + "</a>" else t.text;
    assert t.href.Some? ==> core[..|AnchorOpen(t.href.value)|] == AnchorOpen(t.href.value);
    core + (if t.nsfwBadge then NsfwBadge else "")
  }

  /** The display heuristic for link domains: up to 10 characters are kept;
      up to 20 lose their final dot-segment; longer ones lose the final
      segment and then keep only what follows the last remaining dot. */
  function ShortenDomain(domain: string): (r: string)
    ensures |domain| <= 10 ==> r == domain
    ensures |domain| > 10 ==> |r| < |domain|
    ensures 10 < |domain| <= 20 ==> r == domain[..|r|]
    ensures 10 < |domain| <= 20 && '.' !in domain ==> r == ""
    ensures 10 < |domain| <= 20 && '.' in domain ==> domain[|r|] == '.' && '.' !in domain[|r| + 1..]
    ensures |domain| > 20 ==> '.' !in r
  {
    var len := |domain|;
    if len > 20 then
      var cut := Substring(domain, 0, LastIndexOf(domain, '.'));
      var lastIndex := LastIndexOf(cut, '.');
      if lastIndex != -1 then SubstringFrom(cut, lastIndex + 1) else cut
    else if len > 10 then
      Substring(domain, 0, LastIndexOf(domain, '.'))
    else
      domain
  }

  /** Against `split('.')`: a domain of 11 to 20 characters becomes all its
      dot-segments but the last, rejoined (the empty string when there is no
      dot). */
  lemma ShortenMidLengthDropsLastSegment(domain: string)
    requires 10 < |domain| <= 20
    ensures var parts := Split(domain, '.');
            ShortenDomain(domain) == if |parts| == 1 then "" else Join(parts[..|parts| - 1], '.')
  {
    var parts := Split(domain, '.');
    SplitCount(domain, '.');
    if '.' in domain {
      SplitAtLast(domain, '.');
      var k := LastIndexOf(domain, '.');
      assert parts[..|parts| - 1] == Split(domain[..k], '.');
      JoinSplit(domain[..k], '.');
    }
  }

  /** Against `split('.')`: a domain over 20 characters becomes its
      next-to-last dot-segment (the empty string when there is no dot). */
  lemma ShortenLongKeepsSecondLevelLabel(domain: string)
    requires |domain| > 20
    ensures var parts := Split(domain, '.');
            ShortenDomain(domain) == if |parts| == 1 then "" else parts[|parts| - 2]
  {
    var parts := Split(domain, '.');
    SplitCount(domain, '.');
    if '.' in domain {
      SplitAtLast(domain, '.');
      var k := LastIndexOf(domain, '.');
      var cut := domain[..k];
      var head := Split(cut, '.');
      assert parts[|parts| - 2] == head[|head| - 1];
      if '.' in cut {
        SplitAtLast(cut, '.');
      } else {
        SplitWithoutSeparator(cut, '.');
      }
    }
  }

  /** One rendered listing entry; `domain` is what is displayed, and
      `titleOpensComments` records that tapping the title of a self post
      opens its comments while tapping a link title does nothing here. */
  datatype PostView = PostView(
    title: TitleMarkup,
    hasThumbnail: bool,
    thumbnail: string,
    numComments: int,
    subreddit: string,
    score: int,
    domain: string,
    author: string,
    createdUtc: int,
    titleOpensComments: bool)

  function FormatPost(link: Link): (r: PostView)
    ensures IsSelfPost(link) ==> r.domain == link.domain
    ensures !IsSelfPost(link) ==> r.domain == ShortenDomain(link.domain)
    ensures r.hasThumbnail <==> link.thumbnail !in ThumbnailSentinels
    ensures r.title.text == link.title
    ensures r.title.href.Some? <==> !IsSelfPost(link)
    ensures r.title.href.Some? ==> r.title.href.value == link.url
    ensures r.title.nsfwBadge <==> link.over18
    ensures r.titleOpensComments <==> IsSelfPost(link)
    ensures r.numComments == link.numComments && r.thumbnail == link.thumbnail
    ensures r.subreddit == link.subreddit && r.score == link.score
    ensures r.author == link.author && r.createdUtc == link.createdUtc
  {
    var selfPost := IsSelfPost(link);
    var domain := if selfPost then link.domain else ShortenDomain(link.domain);
    var hasThumbnail := link.thumbnail != "" && link.thumbnail != "nsfw"
                        && link.thumbnail != "self" && link.thumbnail != "default";
    var title := TitleMarkup(link.title, if selfPost then None else Some(link.url), link.over18);
    PostView(title, hasThumbnail, link.thumbnail, link.numComments, link.subreddit,
             link.score, domain, link.author, link.createdUtc, selfPost)
  }

  /** A self post is recognised from its subreddit, and its title is the raw
      title text, followed only by the badge when it is NSFW. */
  lemma SelfPostTitleIsPlain(link: Link)
    requires IsSelfPost(link)
    ensures var html := TitleHtml(FormatPost(link).title);
            html == link.title + (if link.over18 then NsfwBadge else "")
  {
  }

  /** Formats every post of a listing, keeping their order. */
  function FormatAll(links: seq<Link>): (r: seq<PostView>)
    ensures |r| == |links|
    ensures forall i :: 0 <= i < |links| ==> r[i] == FormatPost(links[i])
  {
    seq(|links|, i requires 0 <= i < |links| => FormatPost(links[i]))
  }
}

=== FILE: screen_cache.dfy ===
/** The per-session scratch cache the screens share: string keys mapping to
    JSON-shaped values. Objects stored in it are held by reference: a link or
    a comment the screens pass around appears as the address of the one
    mutable object it names in a heap, and a cached listing holds the
    addresses of its posts, so a change made to an object in place shows
    wherever the object is reachable from. */
module ScreenCache {
  import opened Things

  type Addr = nat

  datatype Value =
    | VBool(b: bool)
    | VNum(n: int)
    | VStr(s: string)
    | VListing(children: seq<Addr>)
    | VRef(addr: Addr)
    | VComment(comment: NewComment)

  type Cache = map<string, Value>

  /** A value of `data.num_comments` as JavaScript sees it: a number, absent
      (a comment has no such field), or NaN once `++` met an absent field. */
  datatype Counter = Count(n: int) | Undefined | NaN

  /** The objects the screens share: a fetched link, or a fetched comment
      together with the `num_comments` field the composer may add to it. */
  datatype Thing =
    | LinkThing(link: Link)
    | CommentThing(comment: Comment, numComments: Counter)

  type Heap = map<Addr, Thing>

  datatype Session = Session(cache: Cache, heap: Heap)

  /** The object's `data.name`, its fullname. */
  function ThingName(t: Thing): string {
    match t
    case LinkThing(l) => l.name
    case CommentThing(c, _) => c.name
  }

  /** The object's `data.num_comments`. */
  function CounterOf(t: Thing): (r: Counter)
    ensures t.LinkThing? ==> r == Count(t.link.numComments)
    ensures t.CommentThing? ==> r == t.numComments
  {
    match t
    case LinkThing(l) => Count(l.numComments)
    case CommentThing(_, n) => n
  }

  /** The object with its counter blanked: two objects that agree here
      differ at most in `num_comments`. */
  function WithoutCounter(t: Thing): Thing {
    match t
    case LinkThing(l) => LinkThing(l.(numComments := 0))
    case CommentThing(c, _) => CommentThing(c, Undefined)
  }

  predicate IsLinkAt(heap: Heap, a: Addr) {
    a in heap && heap[a].LinkThing?
  }

  /** A value's references name live objects, and a listing's posts are
      links. */
  predicate Resolves(v: Value, heap: Heap) {
    && (v.VRef? ==> v.addr in heap)
    && (v.VListing? ==> forall i :: 0 <= i < |v.children| ==> IsLinkAt(heap, v.children[i]))
  }

  /** Every value in the cache resolves: the heap is closed, as JavaScript's
      is. */
  predicate RefsResolve(cache: Cache, heap: Heap) {
    forall k :: k in cache ==> Resolves(cache[k], heap)
  }

  /** `c` and `c'` agree on every key outside `keys`. */
  ghost predicate SameOutside(c: Cache, c': Cache, keys: set<string>) {
    forall k :: k !in keys ==> (k in c <==> k in c') && (k in c ==> c[k] == c'[k])
  }

  /** Writing a value that holds no reference keeps the heap closed. */
  lemma PlainWriteResolves(cache: Cache, heap: Heap, k: string, v: Value)
    requires RefsResolve(cache, heap)
    requires v.VBool? || v.VNum? || v.VStr? || v.VComment?
    ensures Resolves(v, heap)
    ensures RefsResolve(cache[k := v], heap)
  {
  }
}

=== FILE: subreddit_screen.dfy ===
/** The subreddit screen's lifecycle hooks (`onScreenReady`, `onDomReady`,
    `onUnload`, `scrollback`) as transitions on the scratch cache. The tab bar,
    loading indicator and DOM appends are not modelled; what remains is which
    keys each hook writes, whether it replays the cached listing or asks the
    client to fetch, and which posts it appends in which order. */
module SubredditScreen {
  import opened Wrappers
  import opened Things
  import opened ScreenCache
  import opened PostFormat

  const VisitedKey: string := "subreddit.visited"
  const ScreenReadyKey: string := "subreddit.screenReady"
  const DomReadyKey: string := "subreddit.domReady"
  const SelectedKey: string := "subreddit.selected"
  const ScrollTopKey: string := "subreddit.scrollTop"
  const ListingKey: string := "subreddit.listing"

  /** The keys the first visit initialises. */
  const FirstVisitKeys: set<string> := {VisitedKey, ScreenReadyKey, DomReadyKey, SelectedKey, ScrollTopKey}

  /** `onScreenReady`: the first time in a session it initialises the screen's
      keys; afterwards it leaves the cache alone. */
  function OnScreenReady(cache: Cache, subreddit: string): (r: Cache)
    ensures VisitedKey !in cache ==>
              && r.Keys == cache.Keys + FirstVisitKeys
              && r[VisitedKey] == VBool(true)
              && r[ScreenReadyKey] == VBool(true)
              && r[DomReadyKey] == VBool(false)
              && r[SelectedKey] == VStr(subreddit)
              && r[ScrollTopKey] == VNum(0)
              && SameOutside(cache, r, FirstVisitKeys)
    ensures VisitedKey in cache ==> r == cache
    ensures VisitedKey in r
    ensures forall heap: Heap :: RefsResolve(cache, heap) ==> RefsResolve(r, heap)
  {
    if VisitedKey !in cache then
      cache[VisitedKey := VBool(true)]
           [ScreenReadyKey := VBool(true)]
           [DomReadyKey := VBool(false)]
           [SelectedKey := VStr(subreddit)]
           [ScrollTopKey := VNum(0)]
    else cache
  }

  /** The replay test compares the stored domReady flag with strict
      equality, so only the boolean true counts. */
  predicate DomAlreadyReady(cache: Cache) {
    DomReadyKey in cache && cache[DomReadyKey] == VBool(true)
  }

  datatype DomReadyOutcome =
    | Replayed(posts: seq<PostView>, scrollbacks: nat)   // appended from the cache; one `scrollback` scheduled per post
    | Fetched(request: string, posts: seq<PostView>)      // listing requested from the client, posts appended as they arrive
    | Threw(err: JsError)                                 // the replay branch found no listing to read

  datatype DomReadyStep = DomReadyStep(cache: Cache, outcome: DomReadyOutcome)

  /** The posts a cached listing holds, read through their references. */
  function Resolve(heap: Heap, addrs: seq<Addr>): (posts: seq<Link>)
    requires forall i :: 0 <= i < |addrs| ==> IsLinkAt(heap, addrs[i])
    ensures |posts| == |addrs|
    ensures forall i :: 0 <= i < |addrs| ==> IsLinkAt(heap, addrs[i]) && LinkThing(posts[i]) == heap[addrs[i]]
  {
    if |addrs| == 0 then []
    else
      assert IsLinkAt(heap, addrs[0]);
      [heap[addrs[0]].link] + Resolve(heap, addrs[1..])
  }

  /** `onDomReady`. `arrived` stands for the posts the listing client hands
      to the per-item callback, in the order it hands them over; `heap`
      holds the link objects the cached listing refers to. */
  function OnDomReady(cache: Cache, heap: Heap, subreddit: string, arrived: seq<Link>): (r: DomReadyStep)
    requires RefsResolve(cache, heap)
    ensures DomReadyKey in r.cache && r.cache[DomReadyKey] == VBool(true)
    ensures RefsResolve(r.cache, heap)
    ensures DomAlreadyReady(cache) ==> r.cache == cache && !r.outcome.Fetched?
    ensures DomAlreadyReady(cache) && ListingKey in cache && cache[ListingKey].VListing? ==>
              var stored := cache[ListingKey].children;
              && r.outcome.Replayed?
              && |r.outcome.posts| == |stored| == r.outcome.scrollbacks
              && forall i :: 0 <= i < |stored| ==>
                   IsLinkAt(heap, stored[i]) && r.outcome.posts[i] == FormatPost(heap[stored[i]].link)
    ensures DomAlreadyReady(cache) && !(ListingKey in cache && cache[ListingKey].VListing?) ==>
              r.outcome.Threw?
    ensures !DomAlreadyReady(cache) ==>
              && r.cache == cache[DomReadyKey := VBool(true)]
              && r.outcome.Fetched?
              && r.outcome.request == subreddit
              && |r.outcome.posts| == |arrived|
              && forall i :: 0 <= i < |arrived| ==> r.outcome.posts[i] == FormatPost(arrived[i])
  {
    if DomAlreadyReady(cache) then
      if ListingKey in cache && cache[ListingKey].VListing? then
        var children := cache[ListingKey].children;
        assert forall i :: 0 <= i < |children| ==> IsLinkAt(heap, children[i]);
        DomReadyStep(cache, Replayed(FormatAll(Resolve(heap, children)), |children|))
      else
        DomReadyStep(cache, Threw(TypeError("cannot read 'data' of the cached listing")))
    else
      PlainWriteResolves(cache, heap, DomReadyKey, VBool(true));
      DomReadyStep(cache[DomReadyKey := VBool(true)], Fetched(subreddit, FormatAll(arrived)))
  }

  /** `onUnload`: remembers the listing's scroll offset. */
  function OnUnload(cache: Cache, scrollTop: int): (r: Cache)
    ensures ScrollTopKey in r && r[ScrollTopKey] == VNum(scrollTop)
    ensures SameOutside(cache, r, {ScrollTopKey})
    ensures forall heap: Heap :: RefsResolve(cache, heap) ==> RefsResolve(r, heap)
  {
    cache[ScrollTopKey := VNum(scrollTop)]
  }

  /** `scrollback`: the offset it scrolls the listing to, if a number is
      stored. */
  function Scrollback(cache: Cache): (r: Option<int>)
    ensures r.Some? <==> ScrollTopKey in cache && cache[ScrollTopKey].VNum?
    ensures r.Some? ==> cache[ScrollTopKey] == VNum(r.value)
  {
    if ScrollTopKey in cache && cache[ScrollTopKey].VNum? then Some(cache[ScrollTopKey].n) else None
  }

  /** Whatever happens in between, the scroll offset saved on unload is the
      one restored, as long as no later hook overwrites it: a revisit's
      `onScreenReady` and `onDomReady` do not. */
  lemma UnloadThenRevisitRestoresScroll(
    cache: Cache, heap: Heap, scrollTop: int, subreddit: string, arrived: seq<Link>)
    requires VisitedKey in cache && RefsResolve(cache, heap)
    ensures var c1 := OnScreenReady(OnUnload(cache, scrollTop), subreddit);
            Scrollback(OnDomReady(c1, heap, subreddit, arrived).cache) == Some(scrollTop)
  {
  }

  /** When the revisit replays a non-empty cached listing, it schedules one
      `scrollback` per post, and each of them scrolls to the offset saved on
      unload. */
  lemma RevisitScrollsBackToSavedOffset(
    cache: Cache, heap: Heap, scrollTop: int, subreddit: string, arrived: seq<Link>)
    requires VisitedKey in cache && RefsResolve(cache, heap) && DomAlreadyReady(cache)
    requires ListingKey in cache && cache[ListingKey].VListing? && |cache[ListingKey].children| > 0
    ensures var c1 := OnScreenReady(OnUnload(cache, scrollTop), subreddit);
            var step := OnDomReady(c1, heap, subreddit, arrived);
            && step.outcome.Replayed?
            && step.outcome.scrollbacks == |cache[ListingKey].children| > 0
            && Scrollback(step.cache) == Some(scrollTop)
  {
    var c0 := OnUnload(cache, scrollTop);
    assert c0[ListingKey] == cache[ListingKey] && c0[DomReadyKey] == cache[DomReadyKey];
  }

  /** A whole session: the first visit fetches; once the client has stored
      the listing, leaving and coming back replays exactly the stored posts,
      as their objects now read, without a fetch, and scrolls back to where
      the user left. */
  lemma SecondVisitReplaysFromCache(
    heap: Heap, subreddit: string, arrived: seq<Link>, stored: seq<Addr>, scrollTop: int,
    again: string, arrivedAgain: seq<Link>)
    requires forall i :: 0 <= i < |stored| ==> IsLinkAt(heap, stored[i])
    ensures var first := OnDomReady(OnScreenReady(map[], subreddit), heap, subreddit, arrived);
            var left := OnUnload(first.cache[ListingKey := VListing(stored)], scrollTop);
            var second := OnDomReady(OnScreenReady(left, again), heap, again, arrivedAgain);
            && first.outcome == Fetched(subreddit, FormatAll(arrived))
            && second.outcome == Replayed(FormatAll(Resolve(heap, stored)), |stored|)
            && Scrollback(second.cache) == Some(scrollTop)
            && second.cache[SelectedKey] == VStr(subreddit)
            && (Resolve(heap, stored) == arrived ==> second.outcome.posts == first.outcome.posts)
  {
  }

  /** `onScreenReady` is idempotent: once the screen is initialised, calling
      it again, with any subreddit, changes nothing. */
  lemma OnScreenReadyIdempotent(cache: Cache, subreddit: string, again: string)
    ensures OnScreenReady(OnScreenReady(cache, subreddit), again) == OnScreenReady(cache, subreddit)
  {
  }
}

=== FILE: things.dfy ===
/** The JSON records the client receives from the Reddit API and creates
    locally, reduced to the fields the view layer reads. */
module Things {
  import opened Wrappers

  /** A `t3` link (a post); identity is its fullname `name`. */
  datatype Link = Link(
    name: string,
    title: string,
    url: string,
    domain: string,
    subreddit: string,
    author: string,
    score: int,
    numComments: int,
    createdUtc: int,
    thumbnail: string,
    over18: bool)

  /** The `replies` field of a comment: the API sends an empty string when a
      comment has no replies, so `replies.data` is undefined; otherwise it is a
      listing whose `data.children` are the replies in order. */
  datatype Replies = NoListing | Listing(children: seq<Comment>)

  /** A `t1` comment. A `body` of None is a deleted or removed shell that
      still carries its place in the tree. */
  datatype Comment = Comment(
    name: string,
    parentId: string,
    author: string,
    body: Option<string>,
    ups: int,
    downs: int,
    createdUtc: int,
    replies: Replies)

  /** The `t1` record the composer builds for a reply it has just written. */
  datatype NewComment = NewComment(
    kind: string,
    likes: bool,
    id: string,
    author: string,
    parentId: string,
    edited: bool,
    body: string,
    downs: int,
    ups: int)

  /** The signed-in user as persisted under `snooby.user`. */
  datatype User = User(username: string)

  /** The one exception the modelled code can raise: a property read or call
      on a value that does not have it. */
  datatype JsError = TypeError(message: string)
}

=== FILE: wrappers.dfy ===
/** The absent-or-present value used wherever the JavaScript reads a field
    that may be `undefined`. */
module Wrappers {

  datatype Option<+T> = None | Some(value: T)
}
